=== FILE: README.md ===
# Notification service: a Dafny model

This project models the core of a notification service. The service listens to three Kafka topics of reservation events: created, confirmed and cancelled. For each event it records a notification in a relational table. It also exposes create/read/update/delete operations on that table. The model covers these parts:

- **Envelope conversion** (`Envelope`): `MessageEnvelopeConverter` turns a JSON string or an envelope with a generic payload into an envelope with a typed payload. The payload passes through when it already has the target class, a null payload stays null, and two different exceptions distinguish malformed JSON from any other failure. Jackson's `readValue` and `convertValue` are inputs of the operations (`Reader`, `Converter`), not modelled internally.
- **Entities and validation** (`Entities`, `Validation`, `Mapper`): the request, entity and response records. They cover the `@PrePersist` timestamp rule, the non-null columns, the Bean Validation constraints on the request (`@NotNull`, `@NotBlank` as Java's `trim()`, and `@Email` as an input predicate), and the mapper's "SENT" status default.
- **Service** (`Service`): `createNotification`, `getAllNotifications`, `getNotificationById`, `updateNotification` and `deleteNotification` over a `map<Uuid, Notification>`. `createNotification` receives an `Env` holding the UUID the generator yields, the current time, and whether the database answers. The other four operations receive only whether the database answers. An insert is refused for a null non-nullable column or an id already in use. The model notes but does not model which layer, Hibernate or the database, reports that refusal.
- **Consumers** (`Consumers`): each listener decodes its event, builds exactly one request with its own event type and status "SENT", and calls `createNotification`. Anything thrown is wrapped in `new RuntimeException(e)` without classification. The dead-letter handler only logs.
- **Retry policy** (`Retry`, `Pipeline`): `@RetryableTopic(attempts = "3", backoff = @Backoff(delay = 1000, multiplier = 2.0), dltTopicSuffix = "-dlt")` as a state machine `Received -> Acknowledged | RetryScheduled(delay) | DeadLettered`. `Retry.Run` is the reference trace and `Retry.Deliver` the loop that drives the attempts. `Pipeline.DeliverFrom` runs the real listener under the policy and threads the table through the attempts.

The code retries every exception the same way. A message that cannot be decoded gets no special treatment: three attempts, waits of 1000 ms and 2000 ms, then `<topic>-dlt` (`Retry.NoErrorClassification`, `Pipeline.UndecodableIsRetried`).

The `pt.nelsonalmeida` and `pt.ulusofona.cd` package trees mirror each other. The two `NotificationMapper` files are identical, and one module models both; the table cites each file.

## Model

| member | source | states |
|---|---|---|
| Envelope.ConvertRawPayload | src/main/java/pt/nelsonalmeida/notification/util/MessageEnvelopeConverter.java:107-115 | null gives null; a payload that is an instance of the target is returned unchanged; anything else gives Jackson's conversion; a success is an instance of the target whenever the converter only builds instances; every failure is an IllegalArgumentException |
| Envelope.InstancePassesThrough | src/main/java/pt/nelsonalmeida/notification/util/MessageEnvelopeConverter.java:110-111 | a payload already of the target class never reaches the converter: any two converters give the same result, the payload itself |
| Envelope.ConvertPayload | src/main/java/pt/nelsonalmeida/notification/util/MessageEnvelopeConverter.java:70-86 | a null envelope gives null; otherwise the result keeps messageId, type, timestamp, correlationId and causationId and carries the converted payload; it fails exactly when the payload conversion fails |
| Envelope.ExtractPayload | src/main/java/pt/nelsonalmeida/notification/util/MessageEnvelopeConverter.java:96-101 | null for a null envelope; otherwise exactly the payload of `convertPayload`'s envelope, with the same failures |
| Envelope.ConvertPayloadIdempotent | src/main/java/pt/nelsonalmeida/notification/util/MessageEnvelopeConverter.java:107-115 | converting a converted envelope again to the same class gives the same envelope, when the converter builds instances of that class |
| Envelope.RethrowFromJson | src/main/java/pt/nelsonalmeida/notification/util/MessageEnvelopeConverter.java:51-57 | a JsonProcessingException becomes an IllegalArgumentException, and anything else a RuntimeException, each with the original as cause |
| Envelope.ConvertFromJson | src/main/java/pt/nelsonalmeida/notification/util/MessageEnvelopeConverter.java:32-58 | malformed JSON gives IllegalArgumentException("Invalid message format"); a null string, a null document, a failed payload conversion or any other exception gives RuntimeException("Error processing message") with that exception as cause; a success keeps the five metadata fields of the decoded envelope and carries the converted payload |
| Envelope.InvalidFormatOnlyFromParsing | src/main/java/pt/nelsonalmeida/notification/util/MessageEnvelopeConverter.java:51-53 | the invalid-format error occurs if and only if the JSON reader threw JsonProcessingException |
| Entities.MissingColumn | src/main/java/pt/ulusofona/cd/notification/model/Notification.java:21-31 | no column is reported missing exactly when reservationId, eventType, recipient and status are all non-null |
| Entities.PrePersist | src/main/java/pt/ulusofona/cd/notification/model/Notification.java:36-41 | sentAt is non-null afterwards; a null sentAt becomes the supplied time; a set sentAt is left alone; no other field changes |
| Entities.PrePersistIdempotent | src/main/java/pt/ulusofona/cd/notification/model/Notification.java:36-41 | a second prePersist, at any time, changes nothing |
| Validation.Violations | src/main/java/pt/ulusofona/cd/notification/dto/NotificationRequest.java:19-29 | the reservation-id violation occurs iff the id is null; the event-type and recipient violations occur iff the field is null or blank; the email violation occurs iff the recipient is non-null and not an email |
| Validation.MessagesIdentifyViolations | src/main/java/pt/ulusofona/cd/notification/dto/NotificationRequest.java:19-27 | each violation reports its annotation's own message, no two alike; only the recipient's two constraints, `@NotBlank` and `@Email`, share a field |
| Validation.ValidIff | src/main/java/pt/ulusofona/cd/notification/dto/NotificationRequest.java:19-27 | a request is valid iff it has a reservation id, a non-blank event type and a non-blank recipient that is an email |
| Validation.StatusUnconstrained | src/main/java/pt/ulusofona/cd/notification/dto/NotificationRequest.java:29 | changing the status, to null or anything else, never changes the violations |
| Validation.BlankIffAllTrimmed | src/main/java/pt/ulusofona/cd/notification/dto/NotificationRequest.java:22-26 | a string is blank (empty after `trim()`) iff all its characters are at most U+0020 |
| Validation.WhitespaceRecipientInvalid | src/main/java/pt/ulusofona/cd/notification/dto/NotificationRequest.java:25-26 | an empty or whitespace-only recipient is a violation and makes the request invalid |
| Validation.WhitespaceEventTypeInvalid | src/main/java/pt/ulusofona/cd/notification/dto/NotificationRequest.java:22-23 | an empty or whitespace-only event type is a violation and makes the request invalid |
| Mapper.ToEntity | src/main/java/pt/nelsonalmeida/notification/mapper/NotificationMapper.java:11-18 | reservationId, eventType and recipient are copied; status is the request's when non-null and "SENT" otherwise; id and sentAt are unset |
| Mapper.ToResponse | src/main/java/pt/ulusofona/cd/notification/mapper/NotificationMapper.java:20-29 | all six fields are copied unchanged |
| Mapper.ResponseRoundTrip | src/main/java/pt/nelsonalmeida/notification/mapper/NotificationMapper.java:20-29 | the entity can be rebuilt from its response, so nothing is lost |
| Mapper.ToResponseInjective | src/main/java/pt/ulusofona/cd/notification/mapper/NotificationMapper.java:20-29 | two entities with the same response are equal |
| Mapper.NullStatusMeansSent | src/main/java/pt/ulusofona/cd/notification/mapper/NotificationMapper.java:16 | a request with a null status and one with status "SENT" give the same entity |
| Mapper.ToEntityEqualIff | src/main/java/pt/nelsonalmeida/notification/mapper/NotificationMapper.java:12-17 | two requests give the same entity iff they agree on reservationId, eventType, recipient and status, where a null status counts as "SENT" |
| Mapper.MappedResponseHasStatus | src/main/java/pt/ulusofona/cd/notification/mapper/NotificationMapper.java:16-26 | the response to a freshly mapped request always has a non-null status |
| Service.Insert | src/main/java/pt/ulusofona/cd/notification/model/Notification.java:17-40 | saving a new entity succeeds iff the database answers, its non-null columns are set and the generated id is unused; the stored row is the entity after `prePersist` with the generated id, and is the only change; a failure is the unreachable database or a constraint violation |
| Service.CreateNotification | src/main/java/pt/nelsonalmeida/notification/service/NotificationService.java:26-36 | adds exactly one row, under a generated id not already in the table; its reservationId, eventType and recipient are the request's, status is the request's or "SENT", and sentAt is the current time; other rows are unchanged; the response mirrors the row |
| Service.GetAllNotifications | src/main/java/pt/nelsonalmeida/notification/service/NotificationService.java:38-42 | one response per row: the responses correspond, through a permutation of the ids, to the rows' responses |
| Service.GetNotificationById | src/main/java/pt/nelsonalmeida/notification/service/NotificationService.java:44-48 | NOT_FOUND for an absent id; otherwise a response from which the stored row is rebuilt exactly |
| Service.UpdateNotification | src/main/java/pt/nelsonalmeida/notification/service/NotificationService.java:50-64 | NOT_FOUND exactly for an absent id, and a constraint violation for any other failure with the database up; overwrites reservationId, eventType and recipient; replaces the status only when the request gives one; keeps id and sentAt; no other row changes |
| Service.DeleteNotification | src/main/java/pt/nelsonalmeida/notification/service/NotificationService.java:66-71 | NOT_FOUND and no change for an absent id; otherwise exactly that id is removed and every other row is kept |
| Service.UpdateIdempotent | src/main/java/pt/nelsonalmeida/notification/service/NotificationService.java:50-63 | applying the same update twice gives the same table and response as applying it once |
| Service.NullStatusAsymmetry | src/main/java/pt/nelsonalmeida/notification/service/NotificationService.java:58-60 | without a status, create records "SENT" while update keeps the row's old status |
| Service.ValidRequestIsStored | src/main/java/pt/ulusofona/cd/notification/model/Notification.java:21-31 | every request that passes validation satisfies the non-null columns, so it is stored when the database answers and the id is unused |
| Service.CreateThenGet | src/main/java/pt/nelsonalmeida/notification/service/NotificationService.java:26-48 | a created notification is returned by id with the response create gave, `sentAt` included, given a clock at the column's precision |
| Service.DeleteThenGet | src/main/java/pt/nelsonalmeida/notification/service/NotificationService.java:44-71 | a deleted id is NOT_FOUND afterwards |
| Service.CreatePreservesWellFormed | src/main/java/pt/ulusofona/cd/notification/model/Notification.java:17-41 | after create, every row is stored under its own id, has its non-null columns set and has a sentAt |
| Service.UpdatePreservesWellFormed | src/main/java/pt/nelsonalmeida/notification/service/NotificationService.java:50-63 | update keeps every row under its own id, with its non-null columns set and a sentAt |
| Service.DeletePreservesWellFormed | src/main/java/pt/nelsonalmeida/notification/service/NotificationService.java:66-71 | delete keeps the remaining rows well formed |
| Consumers.RequestOf | src/main/java/pt/nelsonalmeida/notification/events/NotificationCancelledConsumer.java:34-47 | a request exists iff the reader decodes a non-null envelope with a non-null payload; its reservationId is the event's, its recipient is the event's customerEmail, its eventType is the consumer's, its status is "SENT"; otherwise the failure is the reader's exception or a NullPointerException |
| Consumers.Consume | src/main/java/pt/nelsonalmeida/notification/events/NotificationCancelledConsumer.java:33-53 | a decoding failure creates nothing; every failure is the inner exception wrapped once in RuntimeException; a success leaves exactly the table `createNotification` saved: one new row under the generated id, built from the event and stamped with the current time, and nothing else changed |
| Consumers.HandleDlt | src/main/java/pt/nelsonalmeida/notification/events/NotificationCancelledConsumer.java:55-58 | the dead-letter handler does not throw and writes nothing |
| Consumers.CancelledRequest | src/main/java/pt/nelsonalmeida/notification/events/NotificationCancelledConsumer.java:42-47 | the cancelled consumer's request has eventType "CANCELLED" and status "SENT" |
| Consumers.ConfirmedRequest | src/main/java/pt/ulusofona/cd/notification/events/NotificationConfirmedConsumer.java:42-47 | the confirmed consumer's request has eventType "CONFIRMED" and status "SENT" |
| Consumers.CreatedRequest | src/main/java/pt/ulusofona/cd/notification/events/NotificationCreatedConsumer.java:42-47 | the created consumer's request has eventType "CREATED_PENDING" and status "SENT" |
| Consumers.MissingEmailFailsAtInsert | src/main/java/pt/ulusofona/cd/notification/events/NotificationCreatedConsumer.java:42-51 | consumers do not validate: an event without a customer email gives a null recipient, and the insert then fails |
| Retry.AfterAttempt | src/main/java/pt/nelsonalmeida/notification/events/NotificationCancelledConsumer.java:27-31 | after attempt n: acknowledged iff it completed; retry scheduled iff it threw before the last attempt, with delay 1000·2^(n-1); dead-lettered to `<topic>-dlt` iff the last attempt threw |
| Retry.NoErrorClassification | src/main/java/pt/nelsonalmeida/notification/events/NotificationCancelledConsumer.java:49-52 | any two exceptions lead to the same next phase |
| Retry.BackoffIsGeometric | src/main/java/pt/ulusofona/cd/notification/events/NotificationConfirmedConsumer.java:29 | the first wait is the base delay, and each wait is the previous one times the multiplier |
| Retry.Run | src/main/java/pt/ulusofona/cd/notification/events/NotificationCreatedConsumer.java:27-31 | a trace starts with the first receipt, ends in exactly one terminal phase, and has no terminal phase before the end |
| Retry.RunAttemptsBounded | src/main/java/pt/nelsonalmeida/notification/events/NotificationCancelledConsumer.java:27-31 | a message is received at most `attempts` times |
| Retry.RunRetryDelays | src/main/java/pt/nelsonalmeida/notification/events/NotificationCancelledConsumer.java:27-31 | every retry follows a failed attempt before the last one and waits that attempt's backoff delay |
| Retry.RunAcknowledgedAt | src/main/java/pt/ulusofona/cd/notification/events/NotificationConfirmedConsumer.java:27-31 | an acknowledged message was acknowledged at the first attempt that completed, every earlier attempt threw, and exactly the attempts up to it were made |
| Retry.RunAcknowledged | src/main/java/pt/ulusofona/cd/notification/events/NotificationConfirmedConsumer.java:27-31 | acknowledged iff some attempt completes |
| Retry.DeadLetterSpent | src/main/java/pt/ulusofona/cd/notification/events/NotificationCreatedConsumer.java:27-31 | a dead-lettered message went to `<topic>-dlt` after exactly `attempts` attempts, every one of which threw |
| Retry.RunDeadLettered | src/main/java/pt/ulusofona/cd/notification/events/NotificationCreatedConsumer.java:27-31 | dead-lettered iff every attempt fails |
| Retry.DeclaredScheduleWhenAllFail | src/main/java/pt/nelsonalmeida/notification/events/NotificationCancelledConsumer.java:27-31 | under the declared policy, a message that fails every time waits 1000 ms then 2000 ms and is dead-lettered after the third attempt |
| Retry.Deliver | src/main/java/pt/ulusofona/cd/notification/events/NotificationConfirmedConsumer.java:27-31 | the attempt loop produces exactly the reference trace, makes at most `attempts` attempts and ends in a terminal phase |
| Pipeline.DeliverFrom | src/main/java/pt/ulusofona/cd/notification/events/NotificationCreatedConsumer.java:27-58 | one message under the listener's retry policy: the trace starts with the receipt of the first attempt and ends in one terminal phase; a dead-lettered message, handled by `handleDlt`, leaves the table unchanged; an acknowledged one leaves exactly the table its successful attempt produced |
| Pipeline.DeliveryFollowsPolicy | src/main/java/pt/ulusofona/cd/notification/events/NotificationConfirmedConsumer.java:27-52 | delivering a message through the listener gives exactly the policy's trace over the listener's outcomes |
| Pipeline.AtMostOneRow | src/main/java/pt/ulusofona/cd/notification/events/NotificationCreatedConsumer.java:33-53 | a dead-lettered message leaves the table unchanged; an acknowledged one adds exactly one row, under that attempt's unused id |
| Pipeline.AllFailDeadLetters | src/main/java/pt/ulusofona/cd/notification/events/NotificationCreatedConsumer.java:27-58 | if every attempt throws: three receipts, waits of 1000 ms and 2000 ms, then `<topic>-dlt`, with the table unchanged |
| Pipeline.UndecodableIsRetried | src/main/java/pt/nelsonalmeida/notification/events/NotificationCancelledConsumer.java:27-52 | a message that cannot be decoded is retried like any other failure, three attempts in all, then dead-lettered, and no notification is recorded |
| Pipeline.RecoversOnThirdAttempt | src/main/java/pt/ulusofona/cd/notification/events/NotificationConfirmedConsumer.java:27-47 | two failures and then a success give waits of 1000 ms and 2000 ms, an acknowledgement on attempt 3, and that attempt's row |

## Left out

- Kafka transport: listener wiring, topic names other than the `-dlt` suffix, consumer groups, partitions, offsets and the real timers of the retry topics. Only the declared attempts and delays are modelled.
- Framework backoff details: the multiplier is the integer 2 rather than the double 2.0. Spring Retry caps delays at a default maximum, and the cap is not modelled; with three attempts the waits are 1000 ms and 2000 ms, so it is never reached.
- Pipeline.DeliverFrom: models one message with the table changed by nothing else between its attempts. Other messages processed in between on other lanes are not modelled.
- Jackson internals: `readValue` and `convertValue` are inputs. Three things are fixed: `convertValue` maps null to null, it reports a failure as an IllegalArgumentException, and that exception carries the underlying mapping exception's message and the exception itself as cause (`Envelope.ConversionFailure`). Which mapping exceptions Jackson raises is left to the `Converter` input. `readValue` on a null string throws an IllegalArgumentException (`Envelope.NullContent`) whose message is not modelled. JSON numbers are integers.
- Envelope.IsInstance: the class hierarchy is flattened. Every object is an `Object`, and otherwise an object is an instance only of its own runtime class. The DTO and collection interfaces (`Map`, `List`) are not modelled.
- `MessageEnvelope` and the three event DTO files are not part of this model. The five metadata fields are optional strings, and an event is its reservationId and customerEmail.
- Validation.Violations: the email syntax behind `@Email` is an input predicate `isEmail`, not the validator's regular expression. Hibernate Validator's `@Email` accepts the empty string, so `isEmail` is taken to accept `""`; an `isEmail` that rejects it would add `InvalidEmail` for an empty recipient, which is already invalid as blank, so validity is unaffected.
- Retry.NoErrorClassification: Spring Kafka's retry-topic support sends a default list of fatal exceptions straight to the dead-letter topic, looking through their causes (DeserializationException, MessageConversionException, ConversionException, MethodArgumentResolutionException, NoSuchMethodException, ClassCastException). That list is not modelled. The listeners receive the record as a `String` and rethrow everything as `RuntimeException` around exceptions of `Platform.Exception`, none of which is on the list, so every failure of the modelled listener bodies is retried.
- JPA/Spring Data: the repository is a map. UUID generation, `LocalDateTime.now()` and database reachability are per-call inputs (`Service.Env`). Transactions and flush timing are not modelled. A failed save leaves the table unchanged.
- Service.CreateThenGet: the database stores `sent_at` at its column precision (microseconds for Hibernate's `timestamp(6)`), while `LocalDateTime.now()` can carry nanoseconds. Create answers with the in-memory entity and get reloads the stored row, so the two can differ in the sub-microsecond digits. The model assumes `now` is already at the column's precision and stores it exactly.
- The message of `new RuntimeException(e)` (the cause's `toString()`) is not modelled; the wrapper records only its cause.
- Logging, including `sendEmailSimulation` and the dead-letter handler's log line: no effect on the model.
- `NotificationController`: an HTTP pass-through to the service that only chooses status codes. `@Valid` on its inputs is modelled by `Validation.IsValid`.
- `NotificationServiceApplication`: bootstrap only.
- Concurrency and shutdown: the code has none of its own.

=== FILE: consumers.dfy ===
/**
  The three Kafka listeners. Each decodes its reservation event, asks the
  service to record one notification, and wraps anything thrown in a
  `RuntimeException` without looking at it.
*/
module Consumers {
  import opened Wrappers
  import opened Platform
  import opened Envelope
  import opened Entities
  import opened Service
  import opened Retry

  /** The three listener classes. */
  datatype Consumer = NotificationCreatedConsumer | NotificationConfirmedConsumer | NotificationCancelledConsumer {

    /** The payload class the listener decodes. */
    function EventClassConsumed(): EventClass {
      match this
      case NotificationCreatedConsumer => ReservationCreatedEvent
      case NotificationConfirmedConsumer => ReservationConfirmedEvent
      case NotificationCancelledConsumer => ReservationCancelledEvent
    }

    /** The event type the listener records. */
    function EventType(): string {
      match this
      case NotificationCreatedConsumer => "CREATED_PENDING"
      case NotificationConfirmedConsumer => "CONFIRMED"
      case NotificationCancelledConsumer => "CANCELLED"
    }

    /** The listener's `@RetryableTopic`; all three declare the same one. */
    function Policy(): RetryableTopic {
      DeclaredPolicy
    }
  }

  /** An envelope decoded with a typed reservation-event payload. */
  type EventEnvelope = MessageEnvelope<Option<ReservationEvent>>

  /** `objectMapper.readValue(raw, MessageEnvelope<E>)` for the event class `E`. */
  type EventReader = (string, EventClass) -> Result<Option<EventEnvelope>, Exception>

  /** The status every consumer records. */
  const SentStatus: string := "SENT"

  /**
    The request a listener builds from a raw message, or what the decoding throws:
    the reader's exception, or a NullPointerException for a null envelope or a
    null payload.
  */
  function RequestOf(c: Consumer, raw: string, read: EventReader): (r: Result<NotificationRequest, Exception>)
    ensures r.Success? <==>
      && read(raw, c.EventClassConsumed()).Success?
      && read(raw, c.EventClassConsumed()).value.Some?
      && read(raw, c.EventClassConsumed()).value.value.payload.Some?
    ensures read(raw, c.EventClassConsumed()).Failure? ==>
      r == Failure(read(raw, c.EventClassConsumed()).error)
    ensures read(raw, c.EventClassConsumed()).Success? && r.Failure? ==>
      r == Failure(NullPointerException)
    ensures r.Success? ==>
      var event := read(raw, c.EventClassConsumed()).value.value.payload.value;
      && r.value.reservationId == event.reservationId
      && r.value.recipient == event.customerEmail
      && r.value.eventType == Some(c.EventType())
      && r.value.status == Some(SentStatus)
  {
    match read(raw, c.EventClassConsumed())
    case Failure(e) => Failure(e)
    case Success(None) => Failure(NullPointerException)
    case Success(Some(envelope)) =>
      match envelope.payload
      case None => Failure(NullPointerException)
      case Some(event) =>
        Success(NotificationRequest(event.reservationId, Some(c.EventType()), event.customerEmail, Some(SentStatus)))
  }

  /** `throw new RuntimeException(e)`. */
  function Rethrow(e: Exception): Exception {
    RuntimeException(None, Some(e))
  }

  /**
    `consume`: one call of the listener. On success the table holds exactly one
    new row, built from the event; on failure the table is untouched and the
    exception is the one thrown inside, wrapped once.
  */
  function Consume(c: Consumer, raw: string, read: EventReader, rows: Store, env: Env): (r: Result<Store, Exception>)
    ensures RequestOf(c, raw, read).Failure? ==> r == Failure(Rethrow(RequestOf(c, raw, read).error))
    ensures RequestOf(c, raw, read).Success? && CreateNotification(rows, RequestOf(c, raw, read).value, env).Failure? ==>
      r == Failure(Rethrow(CreateNotification(rows, RequestOf(c, raw, read).value, env).error))
    ensures RequestOf(c, raw, read).Success? && CreateNotification(rows, RequestOf(c, raw, read).value, env).Success? ==>
      r == Success(CreateNotification(rows, RequestOf(c, raw, read).value, env).value.rows)
    ensures r.Success? <==>
      RequestOf(c, raw, read).Success? && CreateNotification(rows, RequestOf(c, raw, read).value, env).Success?
    ensures r.Success? ==>
      && env.generatedId !in rows
      && r.value.Keys == rows.Keys + {env.generatedId}
      && (forall k :: k in rows ==> r.value[k] == rows[k])
    ensures r.Success? ==>
      var event := read(raw, c.EventClassConsumed()).value.value.payload.value;
      var n := r.value[env.generatedId];
      && n.id == Some(env.generatedId)
      && n.sentAt == Some(env.now)
      && n.reservationId == event.reservationId
      && n.recipient == event.customerEmail
      && n.eventType == Some(c.EventType())
      && n.status == Some(SentStatus)
  {
    match RequestOf(c, raw, read)
    case Failure(e) => Failure(Rethrow(e))
    case Success(req) =>
      match CreateNotification(rows, req, env)
      case Failure(e) => Failure(Rethrow(e))
      case Success(saved) => Success(saved.rows)
  }

  /** `handleDlt`: logs only, so it never throws and writes nothing. */
  function HandleDlt(rows: Store, raw: string, topic: string): (r: Result<Store, Exception>)
    ensures r.Success? && r.value == rows
  {
    Success(rows)
  }

  /** The cancelled listener records "CANCELLED" for the event's reservation and customer. */
  lemma CancelledRequest(raw: string, read: EventReader)
    requires RequestOf(NotificationCancelledConsumer, raw, read).Success?
    ensures RequestOf(NotificationCancelledConsumer, raw, read).value.eventType == Some("CANCELLED")
    ensures RequestOf(NotificationCancelledConsumer, raw, read).value.status == Some("SENT")
  {
  }

  /** The confirmed listener records "CONFIRMED". */
  lemma ConfirmedRequest(raw: string, read: EventReader)
    requires RequestOf(NotificationConfirmedConsumer, raw, read).Success?
    ensures RequestOf(NotificationConfirmedConsumer, raw, read).value.eventType == Some("CONFIRMED")
    ensures RequestOf(NotificationConfirmedConsumer, raw, read).value.status == Some("SENT")
  {
  }

  /** The created listener records "CREATED_PENDING". */
  lemma CreatedRequest(raw: string, read: EventReader)
    requires RequestOf(NotificationCreatedConsumer, raw, read).Success?
    ensures RequestOf(NotificationCreatedConsumer, raw, read).value.eventType == Some("CREATED_PENDING")
    ensures RequestOf(NotificationCreatedConsumer, raw, read).value.status == Some("SENT")
  {
  }

  /**
    Consumers do not validate: an event without a customer email yields a
    request with a null recipient, which the insert then refuses.
  */
  lemma MissingEmailFailsAtInsert(c: Consumer, raw: string, read: EventReader, rows: Store, env: Env)
    requires RequestOf(c, raw, read).Success?
    requires read(raw, c.EventClassConsumed()).value.value.payload.value.customerEmail.None?
    ensures RequestOf(c, raw, read).value.recipient.None?
    ensures Consume(c, raw, read, rows, env).Failure?
  {
  }
}

=== FILE: entities.dfy ===
/** The request DTO, the persisted `Notification` entity and the response DTO. */
module Entities {
  import opened Wrappers
  import opened Platform

  /** `NotificationRequest`: what a client or a consumer asks the service to record. */
  datatype NotificationRequest = NotificationRequest(
    reservationId: Option<Uuid>,
    eventType: Option<string>,
    recipient: Option<string>,
    status: Option<string>)

  /** The `Notification` entity, one row of the `notification` table. */
  datatype Notification = Notification(
    id: Option<Uuid>,
    reservationId: Option<Uuid>,
    eventType: Option<string>,
    recipient: Option<string>,
    status: Option<string>,
    sentAt: Option<LocalDateTime>)

  /** `NotificationResponse`: the fields of a stored notification as returned to callers. */
  datatype NotificationResponse = NotificationResponse(
    id: Option<Uuid>,
    reservationId: Option<Uuid>,
    eventType: Option<string>,
    recipient: Option<string>,
    status: Option<string>,
    sentAt: Option<LocalDateTime>)

  /** The status the service records when a request gives none. */
  const DefaultStatus: string := "SENT"

  /** The first column declared `nullable = false` that is null in `n`, if any. */
  function MissingColumn(n: Notification): (r: Option<string>)
    ensures r.None? <==> n.reservationId.Some? && n.eventType.Some? && n.recipient.Some? && n.status.Some?
  {
    if n.reservationId.None? then Some("reservation_id")
    else if n.eventType.None? then Some("event_type")
    else if n.recipient.None? then Some("recipient")
    else if n.status.None? then Some("status")
    else None
  }

  /** A row as the database holds it: its columns that are declared non-null are set, and it has been stamped. */
  predicate IsPersisted(n: Notification) {
    MissingColumn(n).None? && n.sentAt.Some?
  }

  /** `prePersist`: stamp `sentAt` with the current time unless it is already set. */
  function PrePersist(n: Notification, now: LocalDateTime): (r: Notification)
    ensures r.sentAt.Some?
    ensures n.sentAt.None? ==> r.sentAt == Some(now)
    ensures n.sentAt.Some? ==> r == n
    ensures r.(sentAt := n.sentAt) == n
  {
    if n.sentAt.None? then n.(sentAt := Some(now)) else n
  }

  /** A second `prePersist`, at any later time, leaves the first one's stamp in place. */
  lemma PrePersistIdempotent(n: Notification, now: LocalDateTime, later: LocalDateTime)
    ensures PrePersist(PrePersist(n, now), later) == PrePersist(n, now)
  {
  }
}

=== FILE: envelope.dfy ===
/**
  The message envelope and the payload normalisation of `MessageEnvelopeConverter`.

  Jackson's `readValue` and `convertValue` are inputs of the operations (a `Reader`
  and a `Converter`): the model says only what the converter does around them.
*/
module Envelope {
  import opened Wrappers
  import opened Platform

  /** A bus message: five metadata fields and a payload of type `P`. */
  datatype MessageEnvelope<+P> = MessageEnvelope(
    messageId: Option<string>,
    messageType: Option<string>,
    timestamp: Option<string>,
    correlationId: Option<string>,
    causationId: Option<string>,
    payload: P)

  /** The three reservation event DTO classes. */
  datatype EventClass = ReservationCreatedEvent | ReservationConfirmedEvent | ReservationCancelledEvent

  /** The fields every reservation event carries. */
  datatype ReservationEvent = ReservationEvent(reservationId: Option<Uuid>, customerEmail: Option<string>)

  /**
    A non-null Java object that can be a payload: a typed event, or the generic
    value Jackson builds for JSON text (a map, a list or a scalar).
  */
  datatype Obj =
    | EventObj(eventClass: EventClass, event: ReservationEvent)
    | MapObj(entries: map<string, Option<Obj>>)
    | ListObj(items: seq<Option<Obj>>)
    | TextObj(text: string)
    | NumberObj(number: int)
    | BoolObj(flag: bool)

  /** The `Class<T>` values a payload can be converted to or tested against. */
  datatype ClassName =
    | EventClassName(eventClass: EventClass)
    | LinkedHashMap
    | ArrayList
    | JavaString
    | JavaInteger
    | JavaBoolean
    | JavaObject

  /** `o.getClass()`. */
  function RuntimeClass(o: Obj): ClassName {
    match o
    case EventObj(c, _) => EventClassName(c)
    case MapObj(_) => LinkedHashMap
    case ListObj(_) => ArrayList
    case TextObj(_) => JavaString
    case NumberObj(_) => JavaInteger
    case BoolObj(_) => JavaBoolean
  }

  /** `target.isInstance(o)`: every object is an Object; otherwise the classes are unrelated. */
  predicate IsInstance(o: Obj, target: ClassName) {
    target == JavaObject || RuntimeClass(o) == target
  }

  /** An envelope as Jackson decodes it before the payload is typed. */
  type RawEnvelope = MessageEnvelope<Option<Obj>>

  /** `objectMapper.readValue(json, MessageEnvelope<Object>)`: a possibly-null envelope, or a thrown exception. */
  type Reader = string -> Result<Option<RawEnvelope>, Exception>

  /**
    Why `convertValue` failed: the underlying mapping exception and its message,
    which Jackson rethrows as `new IllegalArgumentException(e.getMessage(), e)`.
  */
  datatype ConversionFailure = ConversionFailure(message: string, cause: Exception)

  /** `objectMapper.convertValue(o, target)` for a non-null `o`: a converted object, or why it failed. */
  type Converter = (Obj, ClassName) -> Result<Obj, ConversionFailure>

  /** The converter builds instances of `target` whenever it succeeds. */
  ghost predicate Honours(convert: Converter, target: ClassName) {
    forall o :: convert(o, target).Success? ==> IsInstance(convert(o, target).value, target)
  }

  /** `a` and `b` carry the same five metadata fields. */
  predicate SameMetadata<A, B>(a: MessageEnvelope<A>, b: MessageEnvelope<B>) {
    && a.messageId == b.messageId
    && a.messageType == b.messageType
    && a.timestamp == b.timestamp
    && a.correlationId == b.correlationId
    && a.causationId == b.causationId
  }

  /** `convertValue` on a possibly-null value: Jackson maps null to null without converting. */
  function JacksonConvertValue(convert: Converter, p: Option<Obj>, target: ClassName): (r: Result<Option<Obj>, Exception>)
    ensures p.None? ==> r == Success(None)
    ensures p.Some? && convert(p.value, target).Success? ==> r == Success(Some(convert(p.value, target).value))
    ensures r.Failure? <==> p.Some? && convert(p.value, target).Failure?
    ensures r.Failure? ==>
      var failure := convert(p.value, target).error;
      r.error == IllegalArgumentException(Some(failure.message), Some(failure.cause))
  {
    match p
    case None => Success(None)
    case Some(o) =>
      match convert(o, target)
      case Success(v) => Success(Some(v))
      case Failure(failure) => Failure(IllegalArgumentException(Some(failure.message), Some(failure.cause)))
  }

  /** `convertRawPayload`: null stays null, an instance of the target passes through, anything else is converted. */
  function ConvertRawPayload(convert: Converter, raw: Option<Obj>, target: ClassName): (r: Result<Option<Obj>, Exception>)
    ensures raw.None? ==> r == Success(None)
    ensures raw.Some? && IsInstance(raw.value, target) ==> r == Success(raw)
    ensures raw.Some? && !IsInstance(raw.value, target) ==> r == JacksonConvertValue(convert, raw, target)
    ensures r.Success? && r.value.Some? && Honours(convert, target) ==> IsInstance(r.value.value, target)
    ensures r.Failure? ==> r.error.IllegalArgumentException?
  {
    if raw.None? then Success(None)
    else if IsInstance(raw.value, target) then Success(raw)
    else JacksonConvertValue(convert, raw, target)
  }

  /** A payload already of the target class never reaches the converter: any two converters agree on it. */
  lemma InstancePassesThrough(c1: Converter, c2: Converter, o: Obj, target: ClassName)
    requires IsInstance(o, target)
    ensures ConvertRawPayload(c1, Some(o), target) == ConvertRawPayload(c2, Some(o), target) == Success(Some(o))
  {
  }

  /** `convertPayload`: the same metadata around the converted payload; a null envelope gives null. */
  function ConvertPayload(convert: Converter, envelope: Option<RawEnvelope>, target: ClassName): (r: Result<Option<RawEnvelope>, Exception>)
    ensures envelope.None? ==> r == Success(None)
    ensures envelope.Some? ==> (r.Success? <==> ConvertRawPayload(convert, envelope.value.payload, target).Success?)
    ensures envelope.Some? && r.Success? ==>
      && r.value.Some?
      && SameMetadata(envelope.value, r.value.value)
      && r.value.value.payload == ConvertRawPayload(convert, envelope.value.payload, target).value
    ensures r.Failure? ==> r.error == ConvertRawPayload(convert, envelope.value.payload, target).error
  {
    match envelope
    case None => Success(None)
    case Some(e) =>
      match ConvertRawPayload(convert, e.payload, target)
      case Success(typed) => Success(Some(e.(payload := typed)))
      case Failure(err) => Failure(err)
  }

  /** `extractPayload`: exactly the payload `convertPayload` would put in its envelope, with the same failures. */
  function ExtractPayload(convert: Converter, envelope: Option<RawEnvelope>, target: ClassName): (r: Result<Option<Obj>, Exception>)
    ensures envelope.None? ==> r == Success(None)
    ensures envelope.Some? ==> (r.Success? <==> ConvertPayload(convert, envelope, target).Success?)
    ensures envelope.Some? && r.Success? ==> r.value == ConvertPayload(convert, envelope, target).value.value.payload
    ensures r.Failure? ==> ConvertPayload(convert, envelope, target) == Failure(r.error)
  {
    if envelope.None? then Success(None)
    else ConvertRawPayload(convert, envelope.value.payload, target)
  }

  /** Converting an already converted envelope again to the same class changes nothing. */
  lemma ConvertPayloadIdempotent(convert: Converter, envelope: Option<RawEnvelope>, target: ClassName)
    requires Honours(convert, target)
    requires ConvertPayload(convert, envelope, target).Success?
    ensures ConvertPayload(convert, ConvertPayload(convert, envelope, target).value, target)
         == ConvertPayload(convert, envelope, target)
  {
    var once := ConvertPayload(convert, envelope, target).value;
    if once.Some? {
      var p := once.value.payload;
      if p.Some? {
        assert IsInstance(p.value, target);
      }
    }
  }

  /** The message `convertFromJson` gives a malformed-JSON failure. */
  const InvalidMessageFormat: string := "Invalid message format"

  /** The message `convertFromJson` gives every other failure. */
  const ErrorProcessingMessage: string := "Error processing message"

  /** The two catch clauses of `convertFromJson`. */
  function RethrowFromJson(e: Exception): (r: Exception)
    ensures r.IllegalArgumentException? <==> e.JsonProcessingException?
    ensures (r.IllegalArgumentException? || r.RuntimeException?) && r.cause == Some(e)
  {
    if e.JsonProcessingException? then IllegalArgumentException(Some(InvalidMessageFormat), Some(e))
    else RuntimeException(Some(ErrorProcessingMessage), Some(e))
  }

  /**
    What `readValue` throws for a null JSON string: Jackson rejects a null content
    argument with an IllegalArgumentException, not a JsonProcessingException.
  */
  const NullContent: Exception := IllegalArgumentException(None, None)

  /**
    `convertFromJson`: decode the JSON into an envelope with a generic payload, then
    convert the payload to `target`; a malformed document and any other failure are
    reported as two different exceptions. `json == None` is a null string.
  */
  function ConvertFromJson(read: Reader, convert: Converter, json: Option<string>, target: ClassName): (r: Result<RawEnvelope, Exception>)
    ensures json.None? ==> r == Failure(RuntimeException(Some(ErrorProcessingMessage), Some(NullContent)))
    ensures json.Some? && read(json.value).Failure? && read(json.value).error.JsonProcessingException? ==>
      r == Failure(IllegalArgumentException(Some(InvalidMessageFormat), Some(read(json.value).error)))
    ensures json.Some? && read(json.value).Failure? && !read(json.value).error.JsonProcessingException? ==>
      r == Failure(RuntimeException(Some(ErrorProcessingMessage), Some(read(json.value).error)))
    ensures json.Some? && read(json.value) == Success(None) ==>
      r == Failure(RuntimeException(Some(ErrorProcessingMessage), Some(NullPointerException)))
    ensures json.Some? && read(json.value).Success? && read(json.value).value.Some? ==>
      var converted := JacksonConvertValue(convert, read(json.value).value.value.payload, target);
      && (r.Success? <==> converted.Success?)
      && (r.Failure? ==> r == Failure(RuntimeException(Some(ErrorProcessingMessage), Some(converted.error))))
    ensures r.Success? ==>
      && json.Some? && read(json.value).Success? && read(json.value).value.Some?
      && SameMetadata(read(json.value).value.value, r.value)
      && r.value.payload == JacksonConvertValue(convert, read(json.value).value.value.payload, target).value
  {
    match json
    case None => Failure(RethrowFromJson(NullContent))
    case Some(text) =>
      match read(text)
      case Failure(e) => Failure(RethrowFromJson(e))
      case Success(None) => Failure(RethrowFromJson(NullPointerException))
      case Success(Some(raw)) =>
        match JacksonConvertValue(convert, raw.payload, target)
        case Failure(e) => Failure(RethrowFromJson(e))
        case Success(typed) => Success(raw.(payload := typed))
  }

  /** Only malformed JSON is reported as an invalid format; a null string or a failing payload conversion is a processing error. */
  lemma InvalidFormatOnlyFromParsing(read: Reader, convert: Converter, json: Option<string>, target: ClassName)
    requires ConvertFromJson(read, convert, json, target).Failure?
    ensures ConvertFromJson(read, convert, json, target).error.IllegalArgumentException?
        <==> json.Some? && read(json.value).Failure? && read(json.value).error.JsonProcessingException?
  {
  }
}

=== FILE: mapper.dfy ===
/** `NotificationMapper`: request to entity, and entity to response. */
module Mapper {
  import opened Wrappers
  import opened Entities

  /** `toEntity`: a new, unsaved entity holding the request's fields, with the status defaulted to "SENT". */
  function ToEntity(req: NotificationRequest): (n: Notification)
    ensures n.id.None? && n.sentAt.None?
    ensures n.reservationId == req.reservationId
    ensures n.eventType == req.eventType
    ensures n.recipient == req.recipient
    ensures n.status.Some?
    ensures req.status.Some? ==> n.status == req.status
    ensures req.status.None? ==> n.status == Some(DefaultStatus)
  {
    Notification(None, req.reservationId, req.eventType, req.recipient,
                 Some(req.status.GetOr(DefaultStatus)), None)
  }

  /** `toResponse`: every field of the entity, unchanged. */
  function ToResponse(n: Notification): (r: NotificationResponse)
    ensures r.id == n.id && r.reservationId == n.reservationId
    ensures r.eventType == n.eventType && r.recipient == n.recipient
    ensures r.status == n.status && r.sentAt == n.sentAt
  {
    NotificationResponse(n.id, n.reservationId, n.eventType, n.recipient, n.status, n.sentAt)
  }

  /** The response DTO as an entity again; inverse of `ToResponse`. */
  function FromResponse(r: NotificationResponse): Notification {
    Notification(r.id, r.reservationId, r.eventType, r.recipient, r.status, r.sentAt)
  }

  /** `ToResponse` loses nothing: the entity can be read back from the response. */
  lemma ResponseRoundTrip(n: Notification)
    ensures FromResponse(ToResponse(n)) == n
  {
  }

  /** Two entities with the same response are the same entity. */
  lemma ToResponseInjective(a: Notification, b: Notification)
    requires ToResponse(a) == ToResponse(b)
    ensures a == b
  {
    ResponseRoundTrip(a);
    ResponseRoundTrip(b);
  }

  /** A null status and the status "SENT" give the same entity. */
  lemma NullStatusMeansSent(req: NotificationRequest)
    ensures ToEntity(req.(status := None)) == ToEntity(req.(status := Some(DefaultStatus)))
  {
  }

  /** Two requests give the same entity exactly when they agree on all fields once a null status reads as "SENT". */
  lemma ToEntityEqualIff(a: NotificationRequest, b: NotificationRequest)
    ensures ToEntity(a) == ToEntity(b) <==>
      && a.reservationId == b.reservationId
      && a.eventType == b.eventType
      && a.recipient == b.recipient
      && a.status.GetOr(DefaultStatus) == b.status.GetOr(DefaultStatus)
  {
  }

  /** The response to a freshly mapped request always carries a status. */
  lemma MappedResponseHasStatus(req: NotificationRequest)
    ensures ToResponse(ToEntity(req)).status.Some?
  {
  }
}

=== FILE: pipeline.dfy ===
/**
  One message's whole delivery: the listener is called once per attempt under
  its retry policy, and the message ends acknowledged or in the dead-letter
  topic, whose handler only logs.

  The table is threaded through the attempts; `envOf(k)` is what the id
  generator, the clock and the database supply to attempt `k`.
*/
module Pipeline {
  import opened Wrappers
  import opened Platform
  import opened Service
  import opened Retry
  import opened Consumers

  /** The phases one message went through, and the table afterwards. */
  datatype Delivery = Delivery(trace: seq<Phase>, rows: Store)

  /** A listener call as the retry machinery sees it. */
  function OutcomeOf(r: Result<Store, Exception>): (o: AttemptOutcome)
    ensures o.Completed? <==> r.Success?
  {
    match r
    case Success(_) => Completed
    case Failure(e) => Threw(e)
  }

  /** The delivery of `raw`, from attempt `n` on, starting from table `rows`. */
  function DeliverFrom(c: Consumer, topic: string, raw: string, read: EventReader,
                       rows: Store, envOf: nat -> Env, n: nat): (d: Delivery)
    requires 1 <= n <= c.Policy().attempts
    ensures |d.trace| >= 2 && d.trace[0] == Received(n)
    ensures Final(d.trace).IsTerminal()
    ensures Final(d.trace).DeadLettered? ==> d.rows == rows
    ensures Final(d.trace).Acknowledged? ==>
      Consume(c, raw, read, rows, envOf(Final(d.trace).attempt)) == Success(d.rows)
    decreases c.Policy().attempts - n
  {
    var attempt := Consume(c, raw, read, rows, envOf(n));
    var ph := AfterAttempt(c.Policy(), topic, n, OutcomeOf(attempt));
    if ph.RetryScheduled? then
      var rest := DeliverFrom(c, topic, raw, read, rows, envOf, n + 1);
      var trace := [Received(n), ph] + rest.trace;
      assert Final(trace) == Final(rest.trace);
      Delivery(trace, rest.rows)
    else if ph.DeadLettered? then
      Delivery([Received(n), ph], HandleDlt(rows, raw, ph.topic).value)
    else
      Delivery([Received(n), ph], attempt.value)
  }

  /** The outcome of attempt `k` when every attempt starts from the table `rows`. */
  function OutcomesFrom(c: Consumer, raw: string, read: EventReader, rows: Store, envOf: nat -> Env): nat -> AttemptOutcome {
    (k: nat) => OutcomeOf(Consume(c, raw, read, rows, envOf(k)))
  }

  /**
    The delivery follows the declared policy exactly: a failed attempt leaves
    the table as it was, so every attempt sees the same table.
  */
  lemma {:induction false} DeliveryFollowsPolicy(c: Consumer, topic: string, raw: string, read: EventReader,
                                                 rows: Store, envOf: nat -> Env, n: nat)
    requires 1 <= n <= c.Policy().attempts
    ensures DeliverFrom(c, topic, raw, read, rows, envOf, n).trace
         == Run(c.Policy(), topic, OutcomesFrom(c, raw, read, rows, envOf), n)
    decreases c.Policy().attempts - n
  {
    var ph := AfterAttempt(c.Policy(), topic, n, OutcomeOf(Consume(c, raw, read, rows, envOf(n))));
    assert OutcomesFrom(c, raw, read, rows, envOf)(n) == OutcomeOf(Consume(c, raw, read, rows, envOf(n)));
    if ph.RetryScheduled? {
      DeliveryFollowsPolicy(c, topic, raw, read, rows, envOf, n + 1);
    }
  }

  /**
    A delivery adds at most one row: exactly one, from the attempt that was
    acknowledged, and none when the message is dead-lettered.
  */
  lemma AtMostOneRow(c: Consumer, topic: string, raw: string, read: EventReader,
                         rows: Store, envOf: nat -> Env, n: nat)
    requires 1 <= n <= c.Policy().attempts
    ensures var d := DeliverFrom(c, topic, raw, read, rows, envOf, n);
      && |d.trace| > 0
      && (Final(d.trace).DeadLettered? ==> d.rows == rows)
      && (Final(d.trace).Acknowledged? ==>
            var id := envOf(Final(d.trace).attempt).generatedId;
            && id !in rows
            && d.rows.Keys == rows.Keys + {id}
            && (forall k :: k in rows ==> d.rows[k] == rows[k]))
  {
    var d := DeliverFrom(c, topic, raw, read, rows, envOf, n);
    if Final(d.trace).Acknowledged? {
      var env := envOf(Final(d.trace).attempt);
      assert Consume(c, raw, read, rows, env) == Success(d.rows);
    }
  }

  /**
    A message whose every attempt fails is received three times, waits 1000 ms
    and then 2000 ms, goes to `<topic>-dlt`, and leaves the table unchanged.
  */
  lemma AllFailDeadLetters(c: Consumer, topic: string, raw: string, read: EventReader,
                           rows: Store, envOf: nat -> Env)
    requires forall k :: 1 <= k <= 3 ==> Consume(c, raw, read, rows, envOf(k)).Failure?
    ensures DeliverFrom(c, topic, raw, read, rows, envOf, 1) == Delivery([
      Received(1), RetryScheduled(1, 1000),
      Received(2), RetryScheduled(2, 2000),
      Received(3), DeadLettered(topic + "-dlt", 3)], rows)
  {
    var outcomes := OutcomesFrom(c, raw, read, rows, envOf);
    forall k | 1 <= k <= 3
      ensures outcomes(k).Threw?
    {
      assert Consume(c, raw, read, rows, envOf(k)).Failure?;
    }
    DeliveryFollowsPolicy(c, topic, raw, read, rows, envOf, 1);
    DeclaredScheduleWhenAllFail(topic, outcomes);
    AtMostOneRow(c, topic, raw, read, rows, envOf, 1);
  }

  /**
    Nothing distinguishes a message that cannot be decoded: it is retried like
    any other failure, three attempts in all, then dead-lettered, and no
    notification is recorded.
  */
  lemma UndecodableIsRetried(c: Consumer, topic: string, raw: string, read: EventReader,
                             rows: Store, envOf: nat -> Env)
    requires RequestOf(c, raw, read).Failure?
    ensures DeliverFrom(c, topic, raw, read, rows, envOf, 1) == Delivery([
      Received(1), RetryScheduled(1, 1000),
      Received(2), RetryScheduled(2, 2000),
      Received(3), DeadLettered(topic + "-dlt", 3)], rows)
  {
    AllFailDeadLetters(c, topic, raw, read, rows, envOf);
  }

  /**
    Two failed attempts followed by a successful one: waits of 1000 ms and
    2000 ms, then the third attempt is acknowledged and its row is the one added.
  */
  lemma RecoversOnThirdAttempt(c: Consumer, topic: string, raw: string, read: EventReader,
                               rows: Store, envOf: nat -> Env)
    requires Consume(c, raw, read, rows, envOf(1)).Failure?
    requires Consume(c, raw, read, rows, envOf(2)).Failure?
    requires Consume(c, raw, read, rows, envOf(3)).Success?
    ensures DeliverFrom(c, topic, raw, read, rows, envOf, 1) == Delivery([
      Received(1), RetryScheduled(1, 1000),
      Received(2), RetryScheduled(2, 2000),
      Received(3), Acknowledged(3)], Consume(c, raw, read, rows, envOf(3)).value)
  {
  }
}

=== FILE: platform.dfy ===
/** The JVM and library types the service uses: identifiers, instants and exceptions. */
module Platform {
  import opened Wrappers

  /** java.util.UUID, as an opaque identifier. */
  type Uuid = nat

  /** java.time.LocalDateTime, as an opaque instant. */
  type LocalDateTime = int

  /** The exceptions the service throws, catches or receives from its libraries. */
  datatype Exception =
    | JsonProcessingException(detail: string)
    | IllegalArgumentException(message: Option<string>, cause: Option<Exception>)
      /** `message == None` is the constructor `new RuntimeException(cause)`. */
    | RuntimeException(message: Option<string>, cause: Option<Exception>)
    | NullPointerException
    | ResponseStatusException(status: nat, reason: string)
    | DataIntegrityViolationException(column: string)
      /** Whatever the data-access layer throws when the database does not answer; the exact Spring type is left open. */
    | DatabaseUnavailable

  /** HTTP 404, as `HttpStatus.NOT_FOUND`. */
  const NOT_FOUND: nat := 404

  /** What the service throws for an id the repository does not hold. */
  const NotFound: Exception := ResponseStatusException(NOT_FOUND, "Notification not found")
}

=== FILE: retry.dfy ===
/**
  The retry policy each consumer declares with `@RetryableTopic`, as a state
  machine over the attempts made for one message.

  The policy does not look at the exception: every failure of an attempt is
  retried the same way until the attempts run out, and then the message goes to
  the dead-letter topic.
*/
module Retry {
  import opened Platform

  /** The parameters of `@RetryableTopic`; the multiplier 2.0 is the integer 2. */
  datatype RetryableTopic = RetryableTopic(attempts: nat, delayMs: nat, multiplier: nat, dltTopicSuffix: string)

  /** `attempts = "3"`, `@Backoff(delay = 1000, multiplier = 2.0)`, `dltTopicSuffix = "-dlt"`. */
  const DeclaredPolicy: RetryableTopic := RetryableTopic(3, 1000, 2, "-dlt")

  function Pow(b: nat, e: nat): nat {
    if e == 0 then 1 else b * Pow(b, e - 1)
  }

  /** The wait before attempt `n + 1`, after attempt `n` failed: delay * multiplier^(n-1). */
  function BackoffDelay(p: RetryableTopic, n: nat): nat
    requires n >= 1
  {
    p.delayMs * Pow(p.multiplier, n - 1)
  }

  /** Each wait is the previous one times the multiplier, starting from the base delay. */
  lemma BackoffIsGeometric(p: RetryableTopic, n: nat)
    requires n >= 1
    ensures BackoffDelay(p, 1) == p.delayMs
    ensures BackoffDelay(p, n + 1) == p.multiplier * BackoffDelay(p, n)
  {
  }

  /** Where one message stands. */
  datatype Phase =
    | Received(attempt: nat)
    | RetryScheduled(attempt: nat, delayMs: nat)
    | Acknowledged(attempt: nat)
    | DeadLettered(topic: string, attemptsMade: nat)
  {
    predicate IsTerminal() {
      Acknowledged? || DeadLettered?
    }
  }

  /** How one call of the listener ended. */
  datatype AttemptOutcome = Completed | Threw(error: Exception)

  /** The phase that follows attempt `n` of a message from `topic`. */
  function AfterAttempt(p: RetryableTopic, topic: string, n: nat, outcome: AttemptOutcome): (ph: Phase)
    requires 1 <= n <= p.attempts
    ensures ph.Acknowledged? <==> outcome.Completed?
    ensures ph.RetryScheduled? <==> outcome.Threw? && n < p.attempts
    ensures ph.DeadLettered? <==> outcome.Threw? && n == p.attempts
    ensures ph.Acknowledged? ==> ph.attempt == n
    ensures ph.RetryScheduled? ==> ph == RetryScheduled(n, BackoffDelay(p, n))
    ensures ph.DeadLettered? ==> ph == DeadLettered(topic + p.dltTopicSuffix, n)
  {
    match outcome
    case Completed => Acknowledged(n)
    case Threw(_) =>
      if n < p.attempts then RetryScheduled(n, BackoffDelay(p, n))
      else DeadLettered(topic + p.dltTopicSuffix, n)
  }

  /** No exception is classified: any two failures lead to the same next phase. */
  lemma NoErrorClassification(p: RetryableTopic, topic: string, n: nat, e1: Exception, e2: Exception)
    requires 1 <= n <= p.attempts
    ensures AfterAttempt(p, topic, n, Threw(e1)) == AfterAttempt(p, topic, n, Threw(e2))
  {
  }

  /**
    The phases of one message from attempt `n` on, where `outcomeOf(k)` is how
    attempt `k` ends: received, then retried after a delay, until an attempt
    completes or the last one fails.
  */
  function Run(p: RetryableTopic, topic: string, outcomeOf: nat -> AttemptOutcome, n: nat): (trace: seq<Phase>)
    requires 1 <= n <= p.attempts
    ensures |trace| >= 2 && trace[0] == Received(n)
    ensures trace[|trace| - 1].IsTerminal()
    ensures forall i :: 0 <= i < |trace| - 1 ==> !trace[i].IsTerminal()
    decreases p.attempts - n
  {
    var ph := AfterAttempt(p, topic, n, outcomeOf(n));
    if ph.RetryScheduled? then [Received(n), ph] + Run(p, topic, outcomeOf, n + 1)
    else [Received(n), ph]
  }

  /** The last phase of a trace. */
  function Final(trace: seq<Phase>): Phase
    requires |trace| > 0
  {
    trace[|trace| - 1]
  }

  /** The number of attempts a trace records. */
  function AttemptsIn(trace: seq<Phase>): nat {
    if |trace| == 0 then 0
    else (if trace[0].Received? then 1 else 0) + AttemptsIn(trace[1..])
  }

  lemma {:induction false} AttemptsInAppend(a: seq<Phase>, b: seq<Phase>)
    ensures AttemptsIn(a + b) == AttemptsIn(a) + AttemptsIn(b)
    decreases |a|
  {
    if |a| > 0 {
      assert (a + b)[1..] == a[1..] + b;
      AttemptsInAppend(a[1..], b);
    } else {
      assert a + b == b;
    }
  }

  /** One step of a trace, a receipt and what followed it, records one attempt. */
  lemma OneAttemptPerStep(n: nat, ph: Phase)
    requires !ph.Received?
    ensures AttemptsIn([Received(n), ph]) == 1
  {
    var head := [Received(n), ph];
    assert head[1..] == [ph];
    assert [ph][1..] == [];
    assert AttemptsIn([ph]) == AttemptsIn([]) == 0;
    assert AttemptsIn(head) == 1 + AttemptsIn([ph]);
  }

  /** A message is received at most `attempts` times. */
  lemma {:induction false} RunAttemptsBounded(p: RetryableTopic, topic: string, outcomeOf: nat -> AttemptOutcome, n: nat)
    requires 1 <= n <= p.attempts
    ensures AttemptsIn(Run(p, topic, outcomeOf, n)) <= p.attempts - n + 1
    decreases p.attempts - n
  {
    var ph := AfterAttempt(p, topic, n, outcomeOf(n));
    OneAttemptPerStep(n, ph);
    if ph.RetryScheduled? {
      RunAttemptsBounded(p, topic, outcomeOf, n + 1);
      AttemptsInAppend([Received(n), ph], Run(p, topic, outcomeOf, n + 1));
    }
  }

  /** Every retry follows a failed attempt before the last one and waits that attempt's backoff delay. */
  lemma {:induction false} RunRetryDelays(p: RetryableTopic, topic: string, outcomeOf: nat -> AttemptOutcome, n: nat)
    requires 1 <= n <= p.attempts
    ensures forall i :: 0 <= i < |Run(p, topic, outcomeOf, n)| && Run(p, topic, outcomeOf, n)[i].RetryScheduled? ==>
      var ph := Run(p, topic, outcomeOf, n)[i];
      && n <= ph.attempt < p.attempts
      && ph.delayMs == BackoffDelay(p, ph.attempt)
      && outcomeOf(ph.attempt).Threw?
    decreases p.attempts - n
  {
    var trace := Run(p, topic, outcomeOf, n);
    var ph := AfterAttempt(p, topic, n, outcomeOf(n));
    if ph.RetryScheduled? {
      var rest := Run(p, topic, outcomeOf, n + 1);
      RunRetryDelays(p, topic, outcomeOf, n + 1);
      assert forall i :: 2 <= i < |trace| ==> trace[i] == rest[i - 2];
    }
  }

  /** An acknowledged message was acknowledged at the first attempt that completed, after exactly the attempts up to it. */
  lemma {:induction false} RunAcknowledgedAt(p: RetryableTopic, topic: string, outcomeOf: nat -> AttemptOutcome, n: nat)
    requires 1 <= n <= p.attempts
    requires Final(Run(p, topic, outcomeOf, n)).Acknowledged?
    ensures var k := Final(Run(p, topic, outcomeOf, n)).attempt;
      && n <= k <= p.attempts
      && outcomeOf(k).Completed?
      && (forall j :: n <= j < k ==> outcomeOf(j).Threw?)
      && AttemptsIn(Run(p, topic, outcomeOf, n)) == k - n + 1
    decreases p.attempts - n
  {
    var ph := AfterAttempt(p, topic, n, outcomeOf(n));
    OneAttemptPerStep(n, ph);
    if ph.RetryScheduled? {
      var rest := Run(p, topic, outcomeOf, n + 1);
      assert Final(Run(p, topic, outcomeOf, n)) == Final(rest);
      RunAcknowledgedAt(p, topic, outcomeOf, n + 1);
      AttemptsInAppend([Received(n), ph], rest);
    }
  }

  /** A dead-lettered message failed every attempt, `attempts` of them, and went to `<topic><dltTopicSuffix>`. */
  lemma {:induction false} DeadLetterSpent(p: RetryableTopic, topic: string, outcomeOf: nat -> AttemptOutcome, n: nat)
    requires 1 <= n <= p.attempts
    requires Final(Run(p, topic, outcomeOf, n)).DeadLettered?
    ensures Final(Run(p, topic, outcomeOf, n)) == DeadLettered(topic + p.dltTopicSuffix, p.attempts)
    ensures AttemptsIn(Run(p, topic, outcomeOf, n)) == p.attempts - n + 1
    ensures forall k :: n <= k <= p.attempts ==> outcomeOf(k).Threw?
    decreases p.attempts - n
  {
    var ph := AfterAttempt(p, topic, n, outcomeOf(n));
    OneAttemptPerStep(n, ph);
    if ph.RetryScheduled? {
      var rest := Run(p, topic, outcomeOf, n + 1);
      assert Final(Run(p, topic, outcomeOf, n)) == Final(rest);
      DeadLetterSpent(p, topic, outcomeOf, n + 1);
      AttemptsInAppend([Received(n), ph], rest);
    }
  }

  /** The message is acknowledged if and only if some attempt completes. */
  lemma RunAcknowledged(p: RetryableTopic, topic: string, outcomeOf: nat -> AttemptOutcome, n: nat)
    requires 1 <= n <= p.attempts
    ensures Final(Run(p, topic, outcomeOf, n)).Acknowledged? <==>
      exists k :: n <= k <= p.attempts && outcomeOf(k).Completed?
  {
    var last := Final(Run(p, topic, outcomeOf, n));
    if last.Acknowledged? {
      RunAcknowledgedAt(p, topic, outcomeOf, n);
      assert outcomeOf(last.attempt).Completed?;
    } else {
      DeadLetterSpent(p, topic, outcomeOf, n);
    }
  }

  /** The message is dead-lettered if and only if every attempt fails. */
  lemma RunDeadLettered(p: RetryableTopic, topic: string, outcomeOf: nat -> AttemptOutcome, n: nat)
    requires 1 <= n <= p.attempts
    ensures Final(Run(p, topic, outcomeOf, n)).DeadLettered? <==>
      forall k :: n <= k <= p.attempts ==> outcomeOf(k).Threw?
  {
    var last := Final(Run(p, topic, outcomeOf, n));
    if last.DeadLettered? {
      DeadLetterSpent(p, topic, outcomeOf, n);
    } else {
      RunAcknowledgedAt(p, topic, outcomeOf, n);
      assert outcomeOf(last.attempt).Completed?;
    }
  }

  /** Under the declared policy, a message whose every attempt fails waits 1000 ms, then 2000 ms, then goes to `-dlt`. */
  lemma DeclaredScheduleWhenAllFail(topic: string, outcomeOf: nat -> AttemptOutcome)
    requires forall k :: 1 <= k <= 3 ==> outcomeOf(k).Threw?
    ensures Run(DeclaredPolicy, topic, outcomeOf, 1) == [
      Received(1), RetryScheduled(1, 1000),
      Received(2), RetryScheduled(2, 2000),
      Received(3), DeadLettered(topic + "-dlt", 3)]
  {
  }

  /** Concatenation is associative. */
  lemma ConcatAssoc<T>(a: seq<T>, b: seq<T>, c: seq<T>)
    ensures a + (b + c) == (a + b) + c
  {
  }

  /** One step of `Run`: attempt `n`, its phase, then the rest when a retry was scheduled. */
  lemma RunStep(p: RetryableTopic, topic: string, outcomeOf: nat -> AttemptOutcome, n: nat)
    requires 1 <= n <= p.attempts
    ensures var ph := AfterAttempt(p, topic, n, outcomeOf(n));
      Run(p, topic, outcomeOf, n) ==
        if ph.RetryScheduled? then [Received(n), ph] + Run(p, topic, outcomeOf, n + 1) else [Received(n), ph]
  {
  }

  /**
    The attempt driver: runs attempts one after another, recording each phase,
    until one is terminal. It produces exactly the trace `Run` describes.
  */
  method Deliver(p: RetryableTopic, topic: string, outcomeOf: nat -> AttemptOutcome) returns (trace: seq<Phase>)
    requires p.attempts >= 1
    ensures trace == Run(p, topic, outcomeOf, 1)
    ensures AttemptsIn(trace) <= p.attempts
    ensures Final(trace).IsTerminal()
  {
    trace := [];
    var n := 1;
    ghost var whole := Run(p, topic, outcomeOf, n);
    var done := false;
    while !done
      invariant 1 <= n <= p.attempts
      invariant !done ==> trace + Run(p, topic, outcomeOf, n) == whole
      invariant done ==> trace == whole
      decreases p.attempts - n, !done
    {
      var ph := AfterAttempt(p, topic, n, outcomeOf(n));
      var before := trace;
      trace := trace + [Received(n), ph];
      RunStep(p, topic, outcomeOf, n);
      if ph.RetryScheduled? {
        ConcatAssoc(before, [Received(n), ph], Run(p, topic, outcomeOf, n + 1));
        n := n + 1;
      } else {
        done := true;
      }
    }
    RunAttemptsBounded(p, topic, outcomeOf, 1);
  }
}

=== FILE: service.dfy ===
/**
  `NotificationService` over a repository modelled as a map from id to row.

  `createNotification` receives from outside what the JPA provider, the clock and
  the database would supply: the UUID the id generator yields, `LocalDateTime.now()`,
  and whether the database answers. The other four operations receive only whether
  the database answers.
*/
module Service {
  import opened Wrappers
  import opened Platform
  import opened Entities
  import opened Mapper
  import Validation

  /** The `notification` table: rows by id. */
  type Store = map<Uuid, Notification>

  /** What one call receives from the id generator, the clock and the database. */
  datatype Env = Env(generatedId: Uuid, now: LocalDateTime, databaseUp: bool)

  /** The table after a successful write, and the response the service returns. */
  datatype Saved = Saved(rows: Store, response: NotificationResponse)

  /** Every row is stored under its own id, has its non-null columns set and has been stamped. */
  ghost predicate WellFormed(rows: Store) {
    forall k :: k in rows ==> rows[k].id == Some(k) && IsPersisted(rows[k])
  }

  /**
    `repository.save` of a new entity: `prePersist`, the generated id, then the
    insert, which the database refuses for a null non-nullable column or a
    primary key already in use.
  */
  function Insert(rows: Store, n: Notification, env: Env): (r: Result<(Store, Notification), Exception>)
    ensures r.Success? <==> env.databaseUp && MissingColumn(n).None? && env.generatedId !in rows
    ensures r.Success? ==> r.value.1 == PrePersist(n, env.now).(id := Some(env.generatedId))
    ensures r.Success? ==> r.value.0 == rows[env.generatedId := r.value.1]
    ensures r.Failure? ==> r.error == DatabaseUnavailable || r.error.DataIntegrityViolationException?
  {
    if !env.databaseUp then Failure(DatabaseUnavailable)
    else
      var stamped := PrePersist(n, env.now).(id := Some(env.generatedId));
      match MissingColumn(stamped)
      case Some(column) => Failure(DataIntegrityViolationException(column))
      case None =>
        if env.generatedId in rows then Failure(DataIntegrityViolationException("id"))
        else Success((rows[env.generatedId := stamped], stamped))
  }

  /**
    `createNotification`: map the request to an entity, insert it, answer with
    the stored row.
  */
  function CreateNotification(rows: Store, req: NotificationRequest, env: Env): (r: Result<Saved, Exception>)
    ensures r.Success? <==>
      && env.databaseUp
      && env.generatedId !in rows
      && req.reservationId.Some? && req.eventType.Some? && req.recipient.Some?
    ensures !env.databaseUp ==> r == Failure(DatabaseUnavailable)
    ensures r.Failure? ==> r.error == DatabaseUnavailable || r.error.DataIntegrityViolationException?
    ensures r.Success? ==>
      && r.value.rows.Keys == rows.Keys + {env.generatedId}
      && (forall k :: k in rows ==> r.value.rows[k] == rows[k])
    ensures r.Success? ==>
      var n := r.value.rows[env.generatedId];
      && n.id == Some(env.generatedId)
      && n.reservationId == req.reservationId
      && n.eventType == req.eventType
      && n.recipient == req.recipient
      && n.status == Some(req.status.GetOr(DefaultStatus))
      && n.sentAt == Some(env.now)
      && r.value.response == ToResponse(n)
  {
    match Insert(rows, ToEntity(req), env)
    case Failure(e) => Failure(e)
    case Success((rows', saved)) => Success(Saved(rows', ToResponse(saved)))
  }

  /**
    `getAllNotifications`: one response per row. The ghost `order` names the row
    behind each response; it is a permutation of the table's ids.
  */
  method GetAllNotifications(rows: Store, databaseUp: bool)
    returns (r: Result<seq<NotificationResponse>, Exception>, ghost order: seq<Uuid>)
    ensures !databaseUp ==> r == Failure(DatabaseUnavailable)
    ensures databaseUp ==> r.Success?
    ensures r.Success? ==>
      && |r.value| == |order| == |rows|
      && (forall i :: 0 <= i < |order| ==> order[i] in rows && r.value[i] == ToResponse(rows[order[i]]))
      && (forall i, j :: 0 <= i < j < |order| ==> order[i] != order[j])
      && (forall k :: k in rows ==> k in order)
  {
    order := [];
    if !databaseUp {
      return Failure(DatabaseUnavailable), order;
    }
    var responses: seq<NotificationResponse> := [];
    var remaining := rows.Keys;
    while remaining != {}
      invariant remaining <= rows.Keys
      invariant |responses| == |order|
      invariant |order| + |remaining| == |rows.Keys|
      invariant forall i :: 0 <= i < |order| ==>
        order[i] in rows && order[i] !in remaining && responses[i] == ToResponse(rows[order[i]])
      invariant forall i, j :: 0 <= i < j < |order| ==> order[i] != order[j]
      invariant forall k :: k in rows ==> k in remaining || k in order
      decreases remaining
    {
      var k :| k in remaining;
      responses := responses + [ToResponse(rows[k])];
      order := order + [k];
      remaining := remaining - {k};
    }
    r := Success(responses);
  }

  /** `getNotificationById`: the row's response, or NOT_FOUND. */
  function GetNotificationById(rows: Store, id: Uuid, databaseUp: bool): (r: Result<NotificationResponse, Exception>)
    ensures !databaseUp ==> r == Failure(DatabaseUnavailable)
    ensures databaseUp && id !in rows ==> r == Failure(NotFound)
    ensures r.Success? <==> databaseUp && id in rows
    ensures r.Success? ==> FromResponse(r.value) == rows[id]
  {
    if !databaseUp then Failure(DatabaseUnavailable)
    else if id !in rows then Failure(NotFound)
    else Success(ToResponse(rows[id]))
  }

  /**
    `updateNotification`: overwrite reservation id, event type and recipient;
    overwrite the status only when the request gives one; keep id and `sentAt`.
  */
  function UpdateNotification(rows: Store, id: Uuid, req: NotificationRequest, databaseUp: bool): (r: Result<Saved, Exception>)
    ensures !databaseUp ==> r == Failure(DatabaseUnavailable)
    ensures databaseUp && id !in rows ==> r == Failure(NotFound)
    ensures r.Failure? && databaseUp && id in rows ==> r.error.DataIntegrityViolationException?
    ensures r.Success? <==>
      && databaseUp && id in rows
      && req.reservationId.Some? && req.eventType.Some? && req.recipient.Some?
      && (req.status.Some? || rows[id].status.Some?)
    ensures r.Success? ==>
      && r.value.rows.Keys == rows.Keys
      && (forall k :: k in rows && k != id ==> r.value.rows[k] == rows[k])
    ensures r.Success? ==>
      var n := r.value.rows[id];
      && n.id == rows[id].id
      && n.sentAt == rows[id].sentAt
      && n.reservationId == req.reservationId
      && n.eventType == req.eventType
      && n.recipient == req.recipient
      && n.status == (if req.status.Some? then req.status else rows[id].status)
      && r.value.response == ToResponse(n)
  {
    if !databaseUp then Failure(DatabaseUnavailable)
    else if id !in rows then Failure(NotFound)
    else
      var n := rows[id];
      var changed := n.(reservationId := req.reservationId, eventType := req.eventType,
                        recipient := req.recipient,
                        status := if req.status.Some? then req.status else n.status);
      match MissingColumn(changed)
      case Some(column) => Failure(DataIntegrityViolationException(column))
      case None => Success(Saved(rows[id := changed], ToResponse(changed)))
  }

  /** `deleteNotification`: NOT_FOUND for an unknown id, otherwise exactly that row goes. */
  function DeleteNotification(rows: Store, id: Uuid, databaseUp: bool): (r: Result<Store, Exception>)
    ensures !databaseUp ==> r == Failure(DatabaseUnavailable)
    ensures databaseUp && id !in rows ==> r == Failure(NotFound)
    ensures r.Success? <==> databaseUp && id in rows
    ensures r.Success? ==>
      && r.value.Keys == rows.Keys - {id}
      && |r.value| == |rows| - 1
      && (forall k :: k in r.value ==> r.value[k] == rows[k])
  {
    if !databaseUp then Failure(DatabaseUnavailable)
    else if id !in rows then Failure(NotFound)
    else Success(rows - {id})
  }

  /** Applying an update a second time changes nothing further. */
  lemma UpdateIdempotent(rows: Store, id: Uuid, req: NotificationRequest, databaseUp: bool)
    requires UpdateNotification(rows, id, req, databaseUp).Success?
    ensures UpdateNotification(UpdateNotification(rows, id, req, databaseUp).value.rows, id, req, databaseUp)
         == UpdateNotification(rows, id, req, databaseUp)
  {
    var once := UpdateNotification(rows, id, req, databaseUp).value;
    assert once.rows[id := once.rows[id]] == once.rows;
  }

  /** Without a status, create records "SENT" but update keeps whatever status the row had. */
  lemma NullStatusAsymmetry(rows: Store, id: Uuid, req: NotificationRequest, env: Env)
    requires req.status.None?
    requires CreateNotification(rows, req, env).Success?
    requires UpdateNotification(rows, id, req, env.databaseUp).Success?
    ensures CreateNotification(rows, req, env).value.response.status == Some(DefaultStatus)
    ensures UpdateNotification(rows, id, req, env.databaseUp).value.response.status == rows[id].status
  {
  }

  /** Every request that passes `@Valid` is stored, given a reachable database and an unused generated id. */
  lemma ValidRequestIsStored(rows: Store, req: NotificationRequest, env: Env, isEmail: string -> bool)
    requires Validation.IsValid(req, isEmail)
    requires env.databaseUp && env.generatedId !in rows
    ensures CreateNotification(rows, req, env).Success?
  {
    Validation.ValidIff(req, isEmail);
  }

  /** A created notification can be read back under its generated id. */
  lemma CreateThenGet(rows: Store, req: NotificationRequest, env: Env)
    requires CreateNotification(rows, req, env).Success?
    ensures GetNotificationById(CreateNotification(rows, req, env).value.rows, env.generatedId, true)
         == Success(CreateNotification(rows, req, env).value.response)
  {
  }

  /** A deleted notification is gone. */
  lemma DeleteThenGet(rows: Store, id: Uuid, databaseUp: bool)
    requires DeleteNotification(rows, id, databaseUp).Success?
    ensures GetNotificationById(DeleteNotification(rows, id, databaseUp).value, id, true) == Failure(NotFound)
  {
  }

  /** Create keeps the table well formed. */
  lemma CreatePreservesWellFormed(rows: Store, req: NotificationRequest, env: Env)
    requires WellFormed(rows)
    requires CreateNotification(rows, req, env).Success?
    ensures WellFormed(CreateNotification(rows, req, env).value.rows)
  {
  }

  /** Update keeps the table well formed. */
  lemma UpdatePreservesWellFormed(rows: Store, id: Uuid, req: NotificationRequest, databaseUp: bool)
    requires WellFormed(rows)
    requires UpdateNotification(rows, id, req, databaseUp).Success?
    ensures WellFormed(UpdateNotification(rows, id, req, databaseUp).value.rows)
  {
  }

  /** Delete keeps the table well formed. */
  lemma DeletePreservesWellFormed(rows: Store, id: Uuid, databaseUp: bool)
    requires WellFormed(rows)
    requires DeleteNotification(rows, id, databaseUp).Success?
    ensures WellFormed(DeleteNotification(rows, id, databaseUp).value)
  {
  }
}

=== FILE: validation.dfy ===
/**
  The Bean Validation constraints on `NotificationRequest`: `@NotNull` on the
  reservation id, `@NotBlank` on the event type and recipient, `@Email` on the
  recipient. The email syntax itself is an input predicate.
*/
module Validation {
  import opened Wrappers
  import opened Entities

  /** A character `String.trim()` removes: every code point up to and including the space. */
  predicate IsTrimmed(c: char) {
    c <= ' '
  }

  /** `s` after removing leading trimmed characters. */
  function TrimStart(s: string): (r: string)
    ensures |r| <= |s|
    ensures |r| > 0 ==> !IsTrimmed(r[0])
    decreases |s|
  {
    if |s| > 0 && IsTrimmed(s[0]) then TrimStart(s[1..]) else s
  }

  /** `s` after removing trailing trimmed characters. */
  function TrimEnd(s: string): (r: string)
    ensures |r| <= |s|
    ensures |r| > 0 ==> !IsTrimmed(r[|r| - 1])
    decreases |s|
  {
    if |s| > 0 && IsTrimmed(s[|s| - 1]) then TrimEnd(s[..|s| - 1]) else s
  }

  /** Java's `String.trim()`. */
  function Trim(s: string): string {
    TrimEnd(TrimStart(s))
  }

  /** `TrimStart` leaves nothing exactly when every character is trimmed. */
  lemma {:induction false} TrimStartEmptyIffBlank(s: string)
    ensures |TrimStart(s)| == 0 <==> forall i :: 0 <= i < |s| ==> IsTrimmed(s[i])
    decreases |s|
  {
    if |s| > 0 && IsTrimmed(s[0]) {
      TrimStartEmptyIffBlank(s[1..]);
      assert forall i :: 1 <= i < |s| ==> s[i] == s[1..][i - 1];
    }
  }

  /** `TrimEnd` leaves nothing exactly when every character is one `trim()` removes. */
  lemma {:induction false} TrimEndEmptyOnlyOfBlank(s: string)
    ensures |TrimEnd(s)| == 0 <==> forall i :: 0 <= i < |s| ==> IsTrimmed(s[i])
    decreases |s|
  {
    if |s| > 0 && IsTrimmed(s[|s| - 1]) {
      TrimEndEmptyOnlyOfBlank(s[..|s| - 1]);
      assert forall i :: 0 <= i < |s| - 1 ==> s[i] == s[..|s| - 1][i];
    }
  }

  /** `@NotBlank`: non-null, and something is left after `trim()`. */
  predicate NotBlank(s: Option<string>) {
    s.Some? && |Trim(s.value)| > 0
  }

  /** A string is blank exactly when all its characters are ones `trim()` removes. */
  lemma BlankIffAllTrimmed(s: string)
    ensures !NotBlank(Some(s)) <==> forall i :: 0 <= i < |s| ==> IsTrimmed(s[i])
  {
    TrimStartEmptyIffBlank(s);
    TrimEndEmptyOnlyOfBlank(TrimStart(s));
    if |TrimStart(s)| > 0 {
      assert !IsTrimmed(TrimStart(s)[0]);
      assert |Trim(s)| > 0;
    }
  }

  /** One failed constraint, with the field it is on and the message it reports. */
  datatype Violation = ReservationIdRequired | EventTypeRequired | RecipientRequired | InvalidEmail {

    function Field(): string {
      match this
      case ReservationIdRequired => "reservationId"
      case EventTypeRequired => "eventType"
      case RecipientRequired | InvalidEmail => "recipient"
    }

    function Message(): string {
      match this
      case ReservationIdRequired => "Reservation ID is required"
      case EventTypeRequired => "Event type is required"
      case RecipientRequired => "Recipient email is required"
      case InvalidEmail => "Invalid email format"
    }
  }

  /**
    A client reading the reported violations can tell them apart: no two share a
    message, and only the two constraints on the recipient share a field.
  */
  lemma MessagesIdentifyViolations(a: Violation, b: Violation)
    ensures a.Message() == b.Message() <==> a == b
    ensures a.Field() == b.Field() <==>
      a == b || (a.Field() == "recipient" && b.Field() == "recipient")
    ensures a.Field() == "recipient" <==> a == RecipientRequired || a == InvalidEmail
  {
  }

  /** The constraint violations of `req`; `isEmail` decides the `@Email` syntax. */
  function Violations(req: NotificationRequest, isEmail: string -> bool): (r: set<Violation>)
    ensures ReservationIdRequired in r <==> req.reservationId.None?
    ensures EventTypeRequired in r <==> !NotBlank(req.eventType)
    ensures RecipientRequired in r <==> !NotBlank(req.recipient)
    ensures InvalidEmail in r <==> req.recipient.Some? && !isEmail(req.recipient.value)
  {
    var eventTypeBlank := !NotBlank(req.eventType);
    var recipientBlank := !NotBlank(req.recipient);
    var badEmail := req.recipient.Some? && !isEmail(req.recipient.value);
    (if req.reservationId.None? then {ReservationIdRequired} else {})
    + (if eventTypeBlank then {EventTypeRequired} else {})
    + (if recipientBlank then {RecipientRequired} else {})
    + (if badEmail then {InvalidEmail} else {})
  }

  /** `@Valid` accepts the request. */
  predicate IsValid(req: NotificationRequest, isEmail: string -> bool) {
    Violations(req, isEmail) == {}
  }

  /** A valid request has a reservation id, a non-blank event type and a non-blank, well-formed recipient, and conversely. */
  lemma ValidIff(req: NotificationRequest, isEmail: string -> bool)
    ensures IsValid(req, isEmail) <==>
      && req.reservationId.Some?
      && NotBlank(req.eventType)
      && NotBlank(req.recipient)
      && isEmail(req.recipient.value)
  {
    var v := Violations(req, isEmail);
    if !IsValid(req, isEmail) {
      var x :| x in v;
    }
  }

  /** The status is not constrained: changing it, to null or anything else, never changes the violations. */
  lemma StatusUnconstrained(req: NotificationRequest, status: Option<string>, isEmail: string -> bool)
    ensures Violations(req.(status := status), isEmail) == Violations(req, isEmail)
  {
  }

  /** An empty or whitespace-only field is rejected like a null one. */
  lemma WhitespaceRecipientInvalid(req: NotificationRequest, isEmail: string -> bool)
    requires req.recipient.Some?
    requires forall i :: 0 <= i < |req.recipient.value| ==> IsTrimmed(req.recipient.value[i])
    ensures RecipientRequired in Violations(req, isEmail)
    ensures !IsValid(req, isEmail)
  {
    BlankIffAllTrimmed(req.recipient.value);
  }

  /** The same for the event type. */
  lemma WhitespaceEventTypeInvalid(req: NotificationRequest, isEmail: string -> bool)
    requires req.eventType.Some?
    requires forall i :: 0 <= i < |req.eventType.value| ==> IsTrimmed(req.eventType.value[i])
    ensures EventTypeRequired in Violations(req, isEmail)
    ensures !IsValid(req, isEmail)
  {
    BlankIffAllTrimmed(req.eventType.value);
  }
}

=== FILE: wrappers.dfy ===
/** Java's nullable references and thrown exceptions, as values. */
module Wrappers {

  /** A Java reference that may be null: `None` is null. */
  datatype Option<+T> = None | Some(value: T) {

    /** The referenced value, or `default` when null. */
    function GetOr(default: T): T {
      match this
      case Some(v) => v
      case None => default
    }
  }

  /** A call that either returns `value` or throws `error`. */
  datatype Result<+R, +E> = Success(value: R) | Failure(error: E)
}
